=== FILE: README.md ===
# bypath authentication core in Dafny

bypath is a WordPress plugin that lets registered client applications call
a site's REST API on a user's behalf. This project models the plugin's
authentication core and proves properties of the model:

- **Client records** (post type `bypath`). Saving a record settles its
  24-character client key once. It generates a 48-character secret when
  the record has none or when an administrator asks for one, and logs each
  regeneration in the record's history. `Client::secret` reads secrets
  through an object cache keyed by client key.
- **Request signing** (`ApiBase::check_general_hash`). A request carries
  `client_key` and `token`. The token must be the SHA-256 hex digest of the
  other parameters' values, joined in ascending key order, followed by the
  client's secret. The check answers 400, 401 or 403.
- **User tokens** (`UserToken::get_token`). The newest published token
  post of a user under a client is returned. When there is none, or its
  excerpt reads as false, and generation is asked for, a UUID token is
  issued as a new post.
- **Header authentication** (`Authenticate::auth`). On its first call for
  a request, the `determine_current_user` filter reads an
  `Authorization: Bypath <token>` header, with the keyword in any case.
  It answers the user that token belongs to. Every later call passes its
  input through.

Modules:

- `Wrappers`: `Option`, `Result`, `Outcome`.
- `Php`: string truthiness, the `ksort` key order, decimal printing.
- `Posts`: the post table and newest-first `get_posts`.
- `Client`: client records, the secret cache, `save_post`.
- `KeySort`: `ksort` and the value join.
- `ApiBase`: `check_general_hash`.
- `UserToken`: `get_token`.
- `Authenticate`: `auth`.
- `Rotation`: secret regeneration followed by signed requests.

Parameters of the model:

- SHA-256 is a parameter `sha`. Some lemmas assume every digest reads as true (`TruthyDigests`), as a 64-character hex digest does. The tamper and rotation lemmas also assume it has no collisions (`Injective`). This is an idealisation: no function into strings of one fixed length is collision-free, so those lemmas do not also assume the 64-character length. `ApiBase.IdealHashExists` shows the two assumptions can hold together.
- `wp_generate_password` is a parameter `password`. `PasswordLengths` assumes it returns as many characters as asked for.
- `Uuid::uuid4()`, the clock, the current user and whether `wp_insert_post` fails are fields of the environment records `SaveEnv` and `IssueEnv`. Nonce verification is the boolean `nonceValid` of `SaveRequest`.
- `UserToken::get_user_from_token` is a parameter `lookup`.

Modelling notes:

- A PHP `if ($x)` on a string is false exactly for `""` and `"0"` (`Php.Truthy`). This applies to a credential, a stored key or secret, and an existing token. So a value of `"0"` counts as missing, as in the code: a credential of `"0"` draws the "Client key or token is not set" error of ApiBase.php:43.
- The post table is a sequence. The post at position `i` has ID `i + 1` (`Posts.IdOf`), as WordPress IDs start at 1. A `post_parent` of 0 (`Posts.NO_PARENT`) means no parent.
- `get_posts( … 'posts_per_page' => 1 … )` ordered by date, newest first, is `Posts.Latest`. Equal dates go to the higher position, and so the higher ID. `Posts.Latest` and `Client.GetClientObject` answer positions.
- A PHP array of request parameters is a sequence of distinct keys.

## Model

| member | source | states |
|---|---|---|
| Posts.Latest | app/Hametuha/ByPath/PostType/Client.php:196-212 | None exactly when no post matches the query. Otherwise a matching post that no other match is newer than. |
| Posts.LatestUnique | app/Hametuha/ByPath/PostType/UserToken.php:147-159 | The newest-first single-post query has exactly one answer meeting that description. |
| Posts.LatestAppendOther | app/Hametuha/ByPath/PostType/UserToken.php:162-169 | Inserting a post the query does not match leaves its answer unchanged. |
| Posts.LatestAppendNewest | app/Hametuha/ByPath/PostType/UserToken.php:162-169 | Inserting a matching post dated no earlier than any other makes it the answer. |
| Client.GetClientObject | app/Hametuha/ByPath/PostType/Client.php:196-212 | None exactly when no `bypath` post in the status holds the key. Otherwise such a post. |
| Client.ClientOfUniqueKey | app/Hametuha/ByPath/PostType/Client.php:196-212 | When keys are unique, a client record is found by its own key exactly when its status is the one asked for. |
| Client.Secret | app/Hametuha/ByPath/PostType/Client.php:174-186 | A cache hit answers the cached value and leaves the cache alone. A miss with a published client answers its stored secret and caches it for 3600 seconds. A miss without a client answers "" and caches nothing. |
| Client.SecretTransparent | app/Hametuha/ByPath/PostType/Client.php:174-186 | Over a coherent cache, the cached lookup answers what the store holds and keeps the cache coherent. |
| Client.SaveCredentials | app/Hametuha/ByPath/PostType/Client.php:85-109 | A true stored key is kept; otherwise a 24-character password becomes the key. A secret is generated exactly when regeneration was validly asked for or no true secret is stored. A history entry with the former secret, time and actor is appended exactly on a valid regeneration request. No other field of the record changes. |
| Client.SavePostAsWritten | app/Hametuha/ByPath/PostType/Client.php:81-114 | Posts of other types are left alone. Otherwise only record `id` changes, and the cache entry of its key is dropped only when the record is not published. |
| Client.SavePost | app/Hametuha/ByPath/PostType/Client.php:81-114 | The same, except that the cache entry is also dropped whenever a secret was generated. |
| Client.GeneratedLengths | app/Hametuha/ByPath/PostType/Client.php:15-17 | A generated key has TOKEN_KEY_LENGTH (24) characters and a generated secret has TOKEN_SECRET_LENGTH (48). |
| Client.KeyStableAcrossSaves | app/Hametuha/ByPath/PostType/Client.php:85-91 | A second save keeps the key the first settled on, which is the stored key when one was there. Without a regeneration request the second save changes nothing stored. |
| Client.SaveKeepsConsistent | app/Hametuha/ByPath/PostType/Client.php:81-114 | An edit followed by `save_post` keeps the invariant: keys unique and true, and every cached secret belongs to a published client and equals its stored secret. A key that must be generated is assumed new. |
| Client.AsWrittenServesFormerSecret | app/Hametuha/ByPath/PostType/Client.php:111 | Under the cache rule as written, an explicit regeneration on a published client with a cached secret leaves the lookup answering the former secret, while the store holds the new one. |
| KeySort.Sort | app/Hametuha/ByPath/Pattern/ApiBase.php:48 | `ksort` returns a permutation of its input: the same multiset of parameters. |
| Php.LessIrreflexive | app/Hametuha/ByPath/Pattern/ApiBase.php:48 | No key sorts before itself under the `ksort` key order. |
| Php.LessAsymmetric | app/Hametuha/ByPath/Pattern/ApiBase.php:48 | Of two keys, at most one sorts before the other. |
| Php.LessTransitive | app/Hametuha/ByPath/Pattern/ApiBase.php:48 | The key order is transitive. |
| Php.LessTotal | app/Hametuha/ByPath/Pattern/ApiBase.php:48 | Of two different keys, one sorts before the other, so the order is a strict total order. |
| KeySort.SortSorted | app/Hametuha/ByPath/Pattern/ApiBase.php:48 | The result of `ksort` on distinct keys is in strictly ascending key order. |
| KeySort.SortedUnique | app/Hametuha/ByPath/Pattern/ApiBase.php:48 | Two key-sorted arrays with the same elements are equal. |
| KeySort.SortIgnoresOrder | app/Hametuha/ByPath/Pattern/ApiBase.php:47-51 | Arrays with the same elements sort to the same result, whatever order they arrive in. |
| KeySort.ConcatDistinguishes | app/Hametuha/ByPath/Pattern/ApiBase.php:49-51 | Joining the values of two different arrays with the same keys and value lengths gives different strings. |
| ApiBase.Partition | app/Hametuha/ByPath/Pattern/ApiBase.php:27-40 | `client_key` and `token` become credentials exactly when supplied with a true value, and carry their request values. Every other parameter, and only those, is kept for hashing. |
| ApiBase.CountTwo | app/Hametuha/ByPath/Pattern/ApiBase.php:42 | The credential count is 2 exactly when both credentials are present. |
| ApiBase.ErrorMapping | app/Hametuha/ByPath/Pattern/ApiBase.php:43-64 | `bad_request` has status 400, `no_client` 401 and `bad_hash` 403. All are client errors, and each status names one error. |
| ApiBase.CheckGeneralHash | app/Hametuha/ByPath/Pattern/ApiBase.php:22-65 | 400 exactly when a credential is missing or false, with the cache untouched. Otherwise: 401 exactly when the secret looked up through the cache is false; pass exactly when the token equals the digest of the sorted joined values followed by the secret. |
| ApiBase.HashedStringDependsOnOthersOnly | app/Hametuha/ByPath/Pattern/ApiBase.php:47-51 | The hashed string depends only on the set of non-credential parameters. It is independent of their arrival order and of the credentials. |
| ApiBase.CheckDecidedBy | app/Hametuha/ByPath/Pattern/ApiBase.php:22-65 | Requests that agree on both credentials and on the hashed string get the same verdict and leave the same cache. |
| ApiBase.CheckIgnoresOrder | app/Hametuha/ByPath/Pattern/ApiBase.php:27-51 | Permuting a request's parameters changes neither the verdict nor the cache left behind. |
| ApiBase.RequestValues | app/Hametuha/ByPath/Pattern/ApiBase.php:27-51 | A request made of business parameters, a key and a token yields that key, that token and the sorted join of the business values. |
| ApiBase.SignedRequestVerifies | app/Hametuha/ByPath/Pattern/ApiBase.php:53-64 | Round trip: a request signed with the secret the lookup yields passes. |
| ApiBase.MismatchedTokenRejected | app/Hametuha/ByPath/Pattern/ApiBase.php:59-64 | A true token that is not the expected digest fails with 403. |
| ApiBase.TamperChangesHashedString | app/Hametuha/ByPath/Pattern/ApiBase.php:47-51 | Changing business values while keeping keys and value lengths changes the hashed string. |
| ApiBase.TamperedRequestRejected | app/Hametuha/ByPath/Pattern/ApiBase.php:47-64 | A signed request whose business values were then altered, keeping their lengths, fails with 403 when every digest reads as true and the hash has no collisions. |
| ApiBase.TwoParamRequestHashes | app/Hametuha/ByPath/Pattern/ApiBase.php:47-51 | A request with parameters `a` and `b` hashes their values joined, `a` first. |
| ApiBase.SameJoinSameVerdict | app/Hametuha/ByPath/Pattern/ApiBase.php:49-51 | Two such requests whose values join to the same string get the same verdict. |
| ApiBase.ValueBoundaryNotSigned | app/Hametuha/ByPath/Pattern/ApiBase.php:49-51 | Moving a non-empty piece from the end of `a`'s value to the start of `b`'s gives a different request with the same verdict and cache, for every token (`a=12&b=3` against `a=1&b=23`, say). The join does not sign where one value ends. |
| ApiBase.BoundaryMoveDiffers | app/Hametuha/ByPath/Pattern/ApiBase.php:49-51 | The two requests of such a move are different requests. |
| ApiBase.IdealHashExists | app/Hametuha/ByPath/Pattern/ApiBase.php:60 | Some hash gives only true digests and has no collisions, so the lemmas that assume both are not vacuous. |
| ApiBase.WorkedExample | app/Hametuha/ByPath/Pattern/ApiBase.php:22-65 | With secret `SECRET1` and `a=1`, `b=2`, a request passes exactly when its token is the digest of `12SECRET1`, and otherwise fails with 403. |
| UserToken.ErrorMapping | app/Hametuha/ByPath/PostType/UserToken.php:142-173 | `client_not_found` has status 404 and `token_generation_failed` has 500. Each status names one error. |
| UserToken.ParentlessBelongsToNoClient | app/Hametuha/ByPath/PostType/UserToken.php:152 | A token post without a parent matches no client's token query. |
| UserToken.GetToken | app/Hametuha/ByPath/PostType/UserToken.php:139-178 | 404 when no published client holds the key. Otherwise the newest token's excerpt is returned if it is true or generation is off. If generation fails: 500 with the store unchanged. Else the new UUID, with one published token post appended for the user, whose parent is the client's ID, titled `Token for <title> of #<user>`. |
| UserToken.GetTokenIdempotent | app/Hametuha/ByPath/PostType/UserToken.php:139-178 | A second call for the same client and user returns the first call's answer and adds nothing, provided the first did not fail with 500. |
| Authenticate.ParseBypath | app/Hametuha/ByPath/Authenticate.php:45-47 | Answers a token exactly when the header matches `^Bypath (.*)$` case-insensitively. The token is what `(.*)` captures: no line feed, with `$` allowed before a final one. |
| Authenticate.ParseBypathRoundTrip | app/Hametuha/ByPath/Authenticate.php:45-49 | Any casing of `Bypath ` followed by a token without line feeds parses back to that token, with or without a final line feed. |
| Authenticate.Auth | app/Hametuha/ByPath/Authenticate.php:37-50 | The flag is always set afterwards. If it was already set, the input user passes through. Otherwise a matching header yields the looked-up user, and a missing or unmatched header passes the input through. |
| Authenticate.RunAuth | app/Hametuha/ByPath/Authenticate.php:37-50 | Repeated calls answer one user per call and leave the flag set. |
| Authenticate.TriedPassesThrough | app/Hametuha/ByPath/Authenticate.php:38-40 | Once tried, every later call returns its input and looks nothing up. |
| Authenticate.AtMostOneLookup | app/Hametuha/ByPath/Authenticate.php:38-49 | Across any number of calls, the token lookup runs at most once, exactly when the header matches, and for the header's token. Calls after the first return their inputs. |
| Authenticate.WorkedExample | app/Hametuha/ByPath/Authenticate.php:44-49 | The header `bypath 123e4567-e89b-12d3-a456-426614174000` authenticates as the user of that token. |
| Rotation.RotatedSecretServed | app/Hametuha/ByPath/PostType/Client.php:93-113 | After the corrected save regenerates a published client's secret, the cached lookup answers the new secret. |
| Rotation.RotationRejectsFormerSecret | app/Hametuha/ByPath/Pattern/ApiBase.php:53-64 | After a corrected regeneration, a request signed with the new secret passes and one signed with the former secret fails with 403, when every digest reads as true and the hash has no collisions. |
| Rotation.AsWrittenAcceptsFormerSecret | app/Hametuha/ByPath/PostType/Client.php:111 | After the save as written, a request signed with the former secret still passes. |

## Left out

- Hook and post-type registration, meta boxes, admin columns, the regeneration button and other UI of the two post types: they affect no authentication decision.
- The plugin bootstrap in `app/Hametuha/ByPath.php`, the REST controllers that call `check_general_hash`, and the login and registration endpoints: they are not part of this model.
- SHA-256, `wp_generate_password` and `Uuid::uuid4()` are parameters, and nonce verification is a boolean. Their algorithms are foreign code.
- The body of `UserToken::get_user_from_token` is not part of this model. `Authenticate` takes it as the parameter `lookup`.
- Cache expiry: the 3600-second TTL is recorded on each entry but never runs out, because the model has no clock for the cache.
- Client.Secret: WordPress's default object cache lives for one request, and a persistent cache backend may evict entries at any time. The model treats the cache as a map that changes only as the code changes it.
- ApiBase.CheckIgnoresOrder and KeySort.SortIgnoresOrder hold only under the model's string order of keys. PHP stores a numeric-string key such as `1` as an integer, and `ksort` compares it with a key such as `01` numerically, as equal. Its stable sort then keeps arrival order. So `?1=a&01=b` hashes `ab`, while `?01=b&1=a` hashes `ba`. In PHP the hashed string can therefore depend on parameter order. The model orders every key as a string.
- PHP's loose `switch` comparison, and non-string request values (arrays, numbers): all parameters are strings here.
- `preg_match` failing on invalid UTF-8 under the `u` flag: strings are sequences of characters.
- Two concurrent `get_token` calls both inserting a token: the model is sequential.
- WordPress's `WP_Query` ignores `author => 0`. The model filters on the given author whatever it is.
- The date tie-break in `Posts.Latest` (the higher ID wins): MySQL leaves the order of equal dates unspecified.
- `suppress_filters`: third-party query filters are not modelled.
- WP_Error messages: only error codes and HTTP statuses are modelled.
- ApiBase.CheckGeneralHash requires distinct parameter keys, since a PHP array cannot repeat one.
- ApiBase.TamperedRequestRejected covers only edits that keep every value's length. ApiBase.ValueBoundaryNotSigned shows that other edits can keep the token valid.
- Client.SaveKeepsConsistent assumes that a generated key is new to the store and the cache. The code does not check this, and relies on 24 random characters.
- UserToken.GetToken: the title is stated as `Token for <title> of #<user>` from the stored title. The source builds it with the translated `__()` format and `get_the_title()`. Outside the admin screens, `get_the_title()` prefixes "Protected: " for a password-protected client, and the `the_title` filters may rewrite the text (`wptexturize`, `convert_chars`, `trim`). Translation and filters are not modelled.
- Client.GetClientObject matches a stored key only when it equals the looked-up key exactly. WordPress's meta query trims the value and compares it under the column's collation. The default utf8mb4 collations ignore case and trailing spaces, so a case or whitespace variant of a key also finds the client. `Client::secret` caches under the key exactly as requested (Client.php:175, 180), while `save_post` drops only the stored key's entry (Client.php:112). So after a regeneration, an entry cached under a variant of the key still answers the former secret, even with the corrected rule. Client.SaveKeepsConsistent and Rotation.RotationRejectsFormerSecret rely on the exact match.
- UserToken.GetTokenIdempotent assumes that the issued UUID reads as true and that the new token is dated strictly later than every existing record. Equal dates would leave the second call's choice to the database's order of equal dates.

## Findings

| source | as written | input that shows it | evidently intended | confidence | as-written member | corrected member |
|---|---|---|---|---|---|---|
| app/Hametuha/ByPath/PostType/Client.php:111 | The cache is cleared when `$http_response_header` or the status is not `publish`. That variable is undefined inside `save_post`, so it reads as false, and a published client's cache entry is never cleared. | A published client whose secret `former` is cached, saved with a valid nonce and `bypath-regen` set. The new secret `rotated` is stored, but `Client::secret` keeps answering `former`, so requests signed with the former secret pass. With a persistent object cache this lasts up to an hour; with the default per-request cache it lasts until the request ends. | Drop the cached secret whenever a change occurred, in particular when the secret was regenerated. The corrected rule drops the entry of the stored key only. Entries cached under a case or whitespace variant of the key are not covered (see Client.GetClientObject under Left out). | not executed | Client.AsWrittenServesFormerSecret | Client.SavePost |

=== FILE: apibase.dfy ===
/** `ApiBase::check_general_hash`: the signed-request check. The request's
    `client_key` and `token` are taken aside, every other parameter value is
    joined in key order, the client secret is appended, and the SHA-256
    digest of that string must equal `token`. SHA-256 is the parameter `sha`. */
module ApiBase {
  import opened Wrappers
  import opened Php
  import opened Posts
  import opened KeySort
  import Client

  const CLIENT_KEY := "client_key"
  const TOKEN := "token"

  predicate Reserved(k: string) {
    k == CLIENT_KEY || k == TOKEN
  }

  /** The three `\WP_Error`s of the check, in the order they are tried. */
  datatype ApiError = BadRequest | NoClient | BadHash {

    function Code(): string {
      match this
      case BadRequest => "bad_request"
      case NoClient => "no_client"
      case BadHash => "bad_hash"
    }

    function Status(): nat {
      match this
      case BadRequest => 400
      case NoClient => 401
      case BadHash => 403
    }
  }

  /** The three errors map to the codes and statuses of ApiBase.php, all
      client errors, and each status names one error. */
  lemma ErrorMapping()
    ensures BadRequest.Code() == "bad_request" && BadRequest.Status() == 400
    ensures NoClient.Code() == "no_client" && NoClient.Status() == 401
    ensures BadHash.Code() == "bad_hash" && BadHash.Status() == 403
    ensures forall e: ApiError :: 400 <= e.Status() < 500
    ensures forall e1: ApiError, e2: ApiError :: e1.Status() == e2.Status() ==> e1 == e2
  {
  }

  /** The value the request carries under key `k`. */
  function ValueOf(ps: seq<Param>, k: string): Option<string> {
    if |ps| == 0 then None
    else if ps[|ps| - 1].key == k then Some(ps[|ps| - 1].value)
    else ValueOf(ps[..|ps| - 1], k)
  }

  /** The request carries `k` with a value PHP reads as true. */
  predicate Supplied(ps: seq<Param>, k: string) {
    ValueOf(ps, k).Some? && Truthy(ValueOf(ps, k).value)
  }

  predicate HasCredentials(ps: seq<Param>) {
    Supplied(ps, CLIENT_KEY) && Supplied(ps, TOKEN)
  }

  lemma {:induction false} ValueOfMembership(ps: seq<Param>, k: string, v: string)
    requires DistinctKeys(ps)
    ensures ValueOf(ps, k) == Some(v) <==> Param(k, v) in ps
  {
    if |ps| > 0 {
      var init := ps[..|ps| - 1];
      assert ps == init + [ps[|ps| - 1]];
      ValueOfMembership(init, k, v);
    }
  }

  lemma {:induction false} ValueOfAbsent(ps: seq<Param>, k: string)
    requires KeyAbsent(k, ps)
    ensures ValueOf(ps, k) == None
  {
    if |ps| > 0 {
      ValueOfAbsent(ps[..|ps| - 1], k);
    }
  }

  /** Lists with the same elements carry the same value under every key. */
  lemma ValueOfIgnoresOrder(a: seq<Param>, b: seq<Param>, k: string)
    requires DistinctKeys(a) && DistinctKeys(b)
    requires forall x :: x in a <==> x in b
    ensures ValueOf(a, k) == ValueOf(b, k)
  {
    if ValueOf(a, k).Some? {
      ValueOfMembership(a, k, ValueOf(a, k).value);
      ValueOfMembership(b, k, ValueOf(a, k).value);
    } else if ValueOf(b, k).Some? {
      ValueOfMembership(b, k, ValueOf(b, k).value);
      ValueOfMembership(a, k, ValueOf(b, k).value);
    }
  }

  /** `$credentials` and `$keys` as the parameter loop leaves them. */
  datatype Split = Split(credentials: map<string, string>, others: seq<Param>)

  /** The parameter loop: a reserved key is kept as a credential only when
      its value is true, and is dropped otherwise; every other parameter is
      kept, in arrival order, for hashing. */
  function Partition(ps: seq<Param>): (r: Split)
    requires DistinctKeys(ps)
    ensures r.credentials.Keys <= {CLIENT_KEY, TOKEN}
    ensures CLIENT_KEY in r.credentials <==> Supplied(ps, CLIENT_KEY)
    ensures TOKEN in r.credentials <==> Supplied(ps, TOKEN)
    ensures forall k :: k in r.credentials ==> ValueOf(ps, k) == Some(r.credentials[k])
    ensures forall x :: x in r.others <==> x in ps && !Reserved(x.key)
    ensures DistinctKeys(r.others)
  {
    if |ps| == 0 then Split(map[], [])
    else
      var init := Partition(ps[..|ps| - 1]);
      var p := ps[|ps| - 1];
      ValueOfAbsent(ps[..|ps| - 1], p.key);
      assert ValueOf(ps, CLIENT_KEY) == if p.key == CLIENT_KEY then Some(p.value) else ValueOf(ps[..|ps| - 1], CLIENT_KEY);
      assert ValueOf(ps, TOKEN) == if p.key == TOKEN then Some(p.value) else ValueOf(ps[..|ps| - 1], TOKEN);
      assert forall x :: x in ps <==> x in ps[..|ps| - 1] || x == p by {
        assert ps == ps[..|ps| - 1] + [p];
      }
      if Reserved(p.key) then
        Split(if Truthy(p.value) then init.credentials[p.key := p.value] else init.credentials, init.others)
      else
        assert forall i :: 0 <= i < |init.others| ==> init.others[i].key != p.key by {
          forall i | 0 <= i < |init.others| ensures init.others[i].key != p.key {
            assert init.others[i] in init.others;
            var j :| 0 <= j < |ps| - 1 && ps[j] == init.others[i];
          }
        }
        Split(init.credentials, init.others + [p])
  }

  /** `count( $credentials ) === 2` holds exactly when both are present. */
  lemma CountTwo(s: set<string>)
    requires s <= {CLIENT_KEY, TOKEN}
    ensures |s| == 2 <==> CLIENT_KEY in s && TOKEN in s
  {
    if CLIENT_KEY in s && TOKEN in s {
      assert s == {CLIENT_KEY, TOKEN};
    } else if CLIENT_KEY in s {
      assert s == {CLIENT_KEY};
    } else if TOKEN in s {
      assert s == {TOKEN};
    } else {
      assert s == {};
    }
  }

  /** The string hashed before the secret is appended: the values of the
      non-reserved parameters in ascending key order. */
  function HashedString(ps: seq<Param>): string
    requires DistinctKeys(ps)
  {
    ConcatValues(Sort(Partition(ps).others))
  }

  datatype Checked = Checked(outcome: Outcome<ApiError>, cache: Client.Cache)

  /** `check_general_hash`. The credential check comes first and consults
      nothing; the secret is then looked up through the cache; only then is
      the digest compared. */
  function CheckGeneralHash(ps: seq<Param>, store: Store, cache: Client.Cache, sha: string -> string): (r: Checked)
    requires DistinctKeys(ps)
    ensures r.outcome == Fail(BadRequest) <==> !HasCredentials(ps)
    ensures !HasCredentials(ps) ==> r.cache == cache
    ensures HasCredentials(ps) ==>
      var lookup := Client.Secret(store, cache, ValueOf(ps, CLIENT_KEY).value);
      && r.cache == lookup.cache
      && (r.outcome == Fail(NoClient) <==> !Truthy(lookup.secret))
      && (r.outcome == Pass <==>
            Truthy(lookup.secret) && ValueOf(ps, TOKEN).value == sha(HashedString(ps) + lookup.secret))
  {
    var split := Partition(ps);
    CountTwo(split.credentials.Keys);
    if |split.credentials.Keys| != 2 then Checked(Fail(BadRequest), cache)
    else
      var toHash := ConcatValues(Sort(split.others));
      var lookup := Client.Secret(store, cache, split.credentials[CLIENT_KEY]);
      if !Truthy(lookup.secret) then Checked(Fail(NoClient), lookup.cache)
      else if split.credentials[TOKEN] == sha(toHash + lookup.secret) then Checked(Pass, lookup.cache)
      else Checked(Fail(BadHash), lookup.cache)
  }

  /** The `client_key` and `token` parameters never reach the hashed string,
      whatever their values, and the order parameters arrive in does not
      matter: only the other parameters, as a set, decide it. */
  lemma HashedStringDependsOnOthersOnly(a: seq<Param>, b: seq<Param>)
    requires DistinctKeys(a) && DistinctKeys(b)
    requires forall x :: x in a && !Reserved(x.key) <==> x in b && !Reserved(x.key)
    ensures HashedString(a) == HashedString(b)
  {
    SortIgnoresOrder(Partition(a).others, Partition(b).others);
  }

  /** The verdict and the cache left behind depend on the request only
      through its two credentials and its hashed string. */
  lemma CheckDecidedBy(a: seq<Param>, b: seq<Param>, store: Store, cache: Client.Cache, sha: string -> string)
    requires DistinctKeys(a) && DistinctKeys(b)
    requires ValueOf(a, CLIENT_KEY) == ValueOf(b, CLIENT_KEY) && ValueOf(a, TOKEN) == ValueOf(b, TOKEN)
    requires HashedString(a) == HashedString(b)
    ensures CheckGeneralHash(a, store, cache, sha) == CheckGeneralHash(b, store, cache, sha)
  {
    var ra := CheckGeneralHash(a, store, cache, sha);
    var rb := CheckGeneralHash(b, store, cache, sha);
    if HasCredentials(a) {
      var lookup := Client.Secret(store, cache, ValueOf(a, CLIENT_KEY).value);
      assert ra.cache == rb.cache;
      if !Truthy(lookup.secret) {
        assert ra.outcome == rb.outcome;
      } else if ValueOf(a, TOKEN).value == sha(HashedString(a) + lookup.secret) {
        assert ra.outcome == rb.outcome;
      } else {
        assert ra.outcome == Fail(BadHash) && rb.outcome == Fail(BadHash);
      }
    }
  }

  /** Permuting the request parameters changes neither the verdict nor the
      cache the check leaves behind. */
  lemma CheckIgnoresOrder(a: seq<Param>, b: seq<Param>, store: Store, cache: Client.Cache, sha: string -> string)
    requires DistinctKeys(a) && DistinctKeys(b)
    requires multiset(a) == multiset(b)
    ensures CheckGeneralHash(a, store, cache, sha) == CheckGeneralHash(b, store, cache, sha)
  {
    assert forall x :: x in a <==> x in multiset(a);
    assert forall x :: x in b <==> x in multiset(b);
    ValueOfIgnoresOrder(a, b, CLIENT_KEY);
    ValueOfIgnoresOrder(a, b, TOKEN);
    HashedStringDependsOnOthersOnly(a, b);
    CheckDecidedBy(a, b, store, cache, sha);
  }

  /** Every digest reads as true, as a 64-character SHA-256 hex digest does. */
  ghost predicate TruthyDigests(sha: string -> string) {
    forall s :: Truthy(sha(s))
  }

  /** Collision freedom, the idealisation of SHA-256 the tamper and rotation
      properties rest on. No function into strings of one fixed length has
      it, so it is stated together with `TruthyDigests` only. */
  ghost predicate Injective(sha: string -> string) {
    forall s, t :: sha(s) == sha(t) ==> s == t
  }

  /** The two idealisations can hold together: prefixing a letter is one
      such hash. */
  lemma IdealHashExists()
    ensures var sha := (s: string) => "x" + s;
      TruthyDigests(sha) && Injective(sha)
  {
    var sha := (s: string) => "x" + s;
    forall s: string ensures Truthy(sha(s)) {
      assert sha(s)[0] == 'x';
    }
    forall s: string, t: string | sha(s) == sha(t) ensures s == t {
      assert s == sha(s)[1..] && t == sha(t)[1..];
    }
  }

  /** What a client sends as `token` for business parameters `ps`. */
  function Sign(ps: seq<Param>, secret: string, sha: string -> string): string {
    sha(ConcatValues(Sort(ps)) + secret)
  }

  /** Business parameters carry no reserved key and no key twice. */
  predicate BusinessParams(ps: seq<Param>) {
    DistinctKeys(ps) && forall i :: 0 <= i < |ps| ==> !Reserved(ps[i].key)
  }

  /** A request holding exactly the business parameters, the client key and
      a token, in any order. */
  ghost predicate RequestOf(request: seq<Param>, ps: seq<Param>, clientKey: string, token: string) {
    && DistinctKeys(request)
    && forall x :: x in request <==> x in ps || x == Param(CLIENT_KEY, clientKey) || x == Param(TOKEN, token)
  }

  lemma RequestValues(request: seq<Param>, ps: seq<Param>, clientKey: string, token: string)
    requires BusinessParams(ps) && RequestOf(request, ps, clientKey, token)
    ensures ValueOf(request, CLIENT_KEY) == Some(clientKey)
    ensures ValueOf(request, TOKEN) == Some(token)
    ensures HashedString(request) == ConcatValues(Sort(ps))
  {
    ValueOfMembership(request, CLIENT_KEY, clientKey);
    ValueOfMembership(request, TOKEN, token);
    SortIgnoresOrder(Partition(request).others, ps);
  }

  /** Round trip: a request signed with the secret the lookup yields passes. */
  lemma SignedRequestVerifies(request: seq<Param>, ps: seq<Param>, clientKey: string, secret: string,
                              store: Store, cache: Client.Cache, sha: string -> string)
    requires BusinessParams(ps) && Truthy(clientKey) && TruthyDigests(sha)
    requires RequestOf(request, ps, clientKey, Sign(ps, secret, sha))
    requires Client.Secret(store, cache, clientKey).secret == secret && Truthy(secret)
    ensures CheckGeneralHash(request, store, cache, sha).outcome == Pass
  {
    RequestValues(request, ps, clientKey, Sign(ps, secret, sha));
  }

  /** A request whose token is not the digest of its own parameters and the
      looked-up secret fails the hash test, and fails nothing earlier. */
  lemma MismatchedTokenRejected(request: seq<Param>, ps: seq<Param>, clientKey: string, token: string,
                                secret: string, store: Store, cache: Client.Cache, sha: string -> string)
    requires BusinessParams(ps) && Truthy(clientKey) && Truthy(token)
    requires RequestOf(request, ps, clientKey, token)
    requires Client.Secret(store, cache, clientKey).secret == secret && Truthy(secret)
    requires token != sha(ConcatValues(Sort(ps)) + secret)
    ensures CheckGeneralHash(request, store, cache, sha).outcome == Fail(BadHash)
  {
    RequestValues(request, ps, clientKey, token);
  }

  /** Values of one shape that differ join, after sorting, into different
      strings. */
  lemma TamperChangesHashedString(ps: seq<Param>, tampered: seq<Param>)
    requires BusinessParams(ps) && SameShape(ps, tampered) && tampered != ps
    ensures BusinessParams(tampered)
    ensures ConcatValues(Sort(ps)) != ConcatValues(Sort(tampered))
  {
    assert forall i :: 0 <= i < |tampered| ==> tampered[i].key == ps[i].key;
    SortShape(ps, tampered);
    if Sort(ps) == Sort(tampered) {
      ShapeSetEqual(ps, tampered);
    }
    ConcatDistinguishes(Sort(ps), Sort(tampered));
  }

  /** Appending the same suffix keeps two different strings different. */
  lemma AppendKeepsApart(a: string, b: string, suffix: string)
    requires a != b
    ensures a + suffix != b + suffix
  {
    assert (a + suffix)[..|a + suffix| - |suffix|] == a;
    assert (b + suffix)[..|b + suffix| - |suffix|] == b;
  }

  /** Tampering: changing business values while keeping every value's length
      (a one-character substitution, say) makes the signed request fail the
      hash test. */
  lemma TamperedRequestRejected(request: seq<Param>, ps: seq<Param>, tampered: seq<Param>, clientKey: string,
                                secret: string, store: Store, cache: Client.Cache, sha: string -> string)
    requires BusinessParams(ps) && SameShape(ps, tampered) && tampered != ps
    requires Truthy(clientKey) && TruthyDigests(sha) && Injective(sha)
    requires RequestOf(request, tampered, clientKey, Sign(ps, secret, sha))
    requires Client.Secret(store, cache, clientKey).secret == secret && Truthy(secret)
    ensures CheckGeneralHash(request, store, cache, sha).outcome == Fail(BadHash)
  {
    TamperChangesHashedString(ps, tampered);
    AppendKeepsApart(ConcatValues(Sort(ps)), ConcatValues(Sort(tampered)), secret);
    MismatchedTokenRejected(request, tampered, clientKey, Sign(ps, secret, sha), secret, store, cache, sha);
  }

  /** A request with business parameters `a=x` and `b=y` for client `CK1`. */
  function TwoParamRequest(x: string, y: string, token: string): seq<Param> {
    [Param("a", x), Param("b", y), Param(CLIENT_KEY, "CK1"), Param(TOKEN, token)]
  }

  /** Business parameters `a=x`, `b=y` are already in key order and join
      to `x + y`. */
  lemma SortedPair(x: string, y: string)
    ensures BusinessParams([Param("a", x), Param("b", y)])
    ensures ConcatValues(Sort([Param("a", x), Param("b", y)])) == x + y
  {
    var ps := [Param("a", x), Param("b", y)];
    assert Less("a", "b");
    assert Sort(ps) == ps;
    assert ps[1..] == [Param("b", y)];
    assert ConcatValues([Param("b", y)]) == y;
  }

  /** Such a request hashes the two values joined, `a` before `b`. */
  lemma TwoParamRequestHashes(x: string, y: string, token: string)
    ensures DistinctKeys(TwoParamRequest(x, y, token))
    ensures ValueOf(TwoParamRequest(x, y, token), CLIENT_KEY) == Some("CK1")
    ensures ValueOf(TwoParamRequest(x, y, token), TOKEN) == Some(token)
    ensures HashedString(TwoParamRequest(x, y, token)) == x + y
  {
    var request := TwoParamRequest(x, y, token);
    var ps := [Param("a", x), Param("b", y)];
    SortedPair(x, y);
    assert DistinctKeys(request);
    assert RequestOf(request, ps, "CK1", token);
    RequestValues(request, ps, "CK1", token);
  }

  /** Two-parameter requests whose values join to the same string get the
      same verdict. */
  lemma SameJoinSameVerdict(x1: string, y1: string, x2: string, y2: string, token: string,
                            store: Store, cache: Client.Cache, sha: string -> string)
    requires x1 + y1 == x2 + y2
    ensures CheckGeneralHash(TwoParamRequest(x1, y1, token), store, cache, sha) ==
            CheckGeneralHash(TwoParamRequest(x2, y2, token), store, cache, sha)
  {
    TwoParamRequestHashes(x1, y1, token);
    TwoParamRequestHashes(x2, y2, token);
    CheckDecidedBy(TwoParamRequest(x1, y1, token), TwoParamRequest(x2, y2, token), store, cache, sha);
  }

  /** Only the joined values are signed, not where one value ends and the
      next begins: moving the non-empty piece `v` from the end of `a` to the
      start of `b` gives a different request with the same verdict, so
      `a=12&b=3` passes with the token of `a=1&b=23`. */
  lemma ValueBoundaryNotSigned(u: string, v: string, w: string, token: string,
                               store: Store, cache: Client.Cache, sha: string -> string)
    requires v != ""
    ensures TwoParamRequest(u + v, w, token) != TwoParamRequest(u, v + w, token)
    ensures CheckGeneralHash(TwoParamRequest(u + v, w, token), store, cache, sha) ==
            CheckGeneralHash(TwoParamRequest(u, v + w, token), store, cache, sha)
  {
    BoundaryMoveDiffers(u, v, w, token);
    var x := u + v;
    var y := v + w;
    assert x + w == u + y;
    SameJoinSameVerdict(x, w, u, y, token, store, cache, sha);
  }

  lemma BoundaryMoveDiffers(u: string, v: string, w: string, token: string)
    requires v != ""
    ensures TwoParamRequest(u + v, w, token) != TwoParamRequest(u, v + w, token)
  {
    assert TwoParamRequest(u + v, w, token)[0].value == u + v;
    assert TwoParamRequest(u, v + w, token)[0].value == u;
  }

  function ExampleRequest(token: string): seq<Param> {
    [Param("b", "2"), Param(CLIENT_KEY, "CK1"), Param("a", "1"), Param(TOKEN, token)]
  }

  lemma ExampleRequestHashes(token: string)
    requires Truthy(token)
    ensures DistinctKeys(ExampleRequest(token))
    ensures HasCredentials(ExampleRequest(token))
    ensures ValueOf(ExampleRequest(token), CLIENT_KEY) == Some("CK1")
    ensures ValueOf(ExampleRequest(token), TOKEN) == Some(token)
    ensures HashedString(ExampleRequest(token)) == "12"
  {
    var request := ExampleRequest(token);
    var ps := [Param("a", "1"), Param("b", "2")];
    SortedPair("1", "2");
    assert DistinctKeys(request);
    assert RequestOf(request, ps, "CK1", token);
    RequestValues(request, ps, "CK1", token);
    assert "1" + "2" == "12";
  }

  /** The worked example: with secret "SECRET1" and parameters `a=1`,
      `b=2`, the token must be the digest of "12SECRET1"; any other token
      fails the hash test. */
  lemma WorkedExample(store: Store, cache: Client.Cache, sha: string -> string, token: string)
    requires Client.Secret(store, cache, "CK1").secret == "SECRET1"
    requires Truthy(token)
    ensures CheckGeneralHash(ExampleRequest(token), store, cache, sha).outcome ==
      if token == sha("12SECRET1") then Pass else Fail(BadHash)
  {
    ExampleRequestHashes(token);
    assert "12" + "SECRET1" == "12SECRET1";
  }
}

=== FILE: authenticate.dfy ===
/** `Authenticate::auth`, the `determine_current_user` filter: on its first
    call for a request it reads the `Authorization` header and, when the
    header is `Bypath <token>`, answers the user that token belongs to; every
    later call passes its input through. The token-to-user resolution
    (`UserToken::get_user_from_token`) is the parameter `lookup`. */
module Authenticate {
  import opened Wrappers
  import opened Php

  const SCHEME := "Bypath "

  /** The authenticator's one piece of state. */
  datatype Authenticator = Authenticator(alreadyTried: bool)

  /** The scheme keyword and its space, compared letter by letter with case
      folded. */
  predicate SchemePrefix(h: string)
    requires |h| >= |SCHEME|
  {
    forall i :: 0 <= i < |SCHEME| ==> Lower(h[i]) == Lower(SCHEME[i])
  }

  /** `token` is what `(.*)` captures when `h` matches the pattern. */
  predicate BypathHeader(h: string, token: string) {
    && |h| >= |SCHEME| && SchemePrefix(h)
    && '\n' !in token
    && (h == h[..|SCHEME|] + token || h == h[..|SCHEME|] + token + "\n")
  }

  /** `preg_match( '#^Bypath (.*)$#iu', $header, $matches )`: the scheme at
      the start, then a token running to the end of the header; `.` does not
      cross a line feed and `$` also matches just before a final one. */
  function ParseBypath(h: string): (r: Option<string>)
    ensures r.Some? ==> BypathHeader(h, r.value)
    ensures r.None? ==> forall t :: !BypathHeader(h, t)
  {
    if |h| < |SCHEME| || !SchemePrefix(h) then None
    else
      var rest := h[|SCHEME|..];
      assert h == h[..|SCHEME|] + rest;
      if '\n' !in rest then Some(rest)
      else if rest[|rest| - 1] == '\n' && '\n' !in rest[..|rest| - 1] then
        assert rest == rest[..|rest| - 1] + "\n";
        Some(rest[..|rest| - 1])
      else
        CapturedToken(h);
        None
  }

  /** What follows the scheme is the token, with or without a final line feed. */
  lemma CapturedToken(h: string)
    ensures forall t :: BypathHeader(h, t) ==>
      |h| >= |SCHEME| && (h[|SCHEME|..] == t || (h[|SCHEME|..] == t + "\n" && h[|SCHEME|..][..|t|] == t))
  {
    forall t | BypathHeader(h, t)
      ensures h[|SCHEME|..] == t || (h[|SCHEME|..] == t + "\n" && h[|SCHEME|..][..|t|] == t)
    {
      if h == h[..|SCHEME|] + t {
        assert h[|SCHEME|..] == t;
      } else {
        assert h[|SCHEME|..] == t + "\n";
      }
    }
  }

  /** A header read with any casing of the scheme keyword yields back the
      token it was built from. */
  lemma {:induction false} ParseBypathRoundTrip(scheme: string, token: string)
    requires |scheme| == |SCHEME| && forall i :: 0 <= i < |SCHEME| ==> Lower(scheme[i]) == Lower(SCHEME[i])
    requires '\n' !in token
    ensures ParseBypath(scheme + token) == Some(token)
    ensures ParseBypath(scheme + token + "\n") == Some(token)
  {
    var h1 := scheme + token;
    assert h1[..|SCHEME|] == scheme && h1[|SCHEME|..] == token;
    var h2 := scheme + token + "\n";
    assert h2[..|SCHEME|] == scheme && h2[|SCHEME|..] == token + "\n";
    assert (token + "\n")[..|token|] == token;
  }

  datatype Step<U> = Step(next: Authenticator, user: U, lookedUp: Option<string>)

  /** One call of the filter with the incoming user `user` and the request's
      `HTTP_AUTHORIZATION` header (None when unset). */
  function Auth<U>(a: Authenticator, user: U, header: Option<string>, lookup: string -> U): (r: Step<U>)
    ensures r.next.alreadyTried
    ensures a.alreadyTried ==> r == Step(a, user, None)
    ensures !a.alreadyTried ==>
      match ParseBypath(header.GetOr(""))
      case None => r == Step(Authenticator(true), user, None)
      case Some(token) => r == Step(Authenticator(true), lookup(token), Some(token))
  {
    if a.alreadyTried then Step(a, user, None)
    else
      var h := header.GetOr("");
      match ParseBypath(h)
      case None => Step(Authenticator(true), user, None)
      case Some(token) => Step(Authenticator(true), lookup(token), Some(token))
  }

  datatype Run<U> = Run(final: Authenticator, users: seq<U>, lookups: seq<string>)

  /** The filter run once per incoming user, in order, within one request. */
  function RunAuth<U>(a: Authenticator, users: seq<U>, header: Option<string>, lookup: string -> U): (r: Run<U>)
    ensures |r.users| == |users|
    ensures |users| > 0 ==> r.final.alreadyTried
    decreases |users|
  {
    if |users| == 0 then Run(a, [], [])
    else
      var step := Auth(a, users[0], header, lookup);
      var rest := RunAuth(step.next, users[1..], header, lookup);
      var looked := if step.lookedUp.Some? then [step.lookedUp.value] else [];
      Run(rest.final, [step.user] + rest.users, looked + rest.lookups)
  }

  /** Once tried, every further call passes its user through and looks
      nothing up. */
  lemma {:induction false} TriedPassesThrough<U>(a: Authenticator, users: seq<U>, header: Option<string>, lookup: string -> U)
    requires a.alreadyTried
    ensures RunAuth(a, users, header, lookup) == Run(a, users, [])
    decreases |users|
  {
    if |users| > 0 {
      TriedPassesThrough(a, users[1..], header, lookup);
      assert users == [users[0]] + users[1..];
    }
  }

  /** Over any number of calls in one request the token lookup runs at most
      once: on the first call, for the token in the header; every answer
      after the first is the user that call was given. */
  lemma AtMostOneLookup<U>(users: seq<U>, header: Option<string>, lookup: string -> U)
    requires |users| > 0
    ensures var r := RunAuth(Authenticator(false), users, header, lookup);
      && |r.lookups| <= 1
      && (|r.lookups| == 1 <==> ParseBypath(header.GetOr("")).Some?)
      && (|r.lookups| == 1 ==> r.lookups[0] == ParseBypath(header.GetOr("")).value)
      && r.users[0] == Auth(Authenticator(false), users[0], header, lookup).user
      && r.users[1..] == users[1..]
  {
    TriedPassesThrough(Authenticator(true), users[1..], header, lookup);
  }

  /** The worked example: a lower-case scheme keyword still names the token. */
  lemma WorkedExample<U>(user: U, lookup: string -> U)
    ensures Auth(Authenticator(false), user, Some("bypath 123e4567-e89b-12d3-a456-426614174000"), lookup).user ==
      lookup("123e4567-e89b-12d3-a456-426614174000")
  {
    var token := "123e4567-e89b-12d3-a456-426614174000";
    assert forall i :: 0 <= i < |SCHEME| ==> Lower("bypath "[i]) == Lower(SCHEME[i]);
    assert "bypath " + token == "bypath 123e4567-e89b-12d3-a456-426614174000";
    ParseBypathRoundTrip("bypath ", token);
  }
}

=== FILE: client.dfy ===
/** Client records (post type `bypath`): credential generation on save, the
    published-client lookup by key, and the read-through secret cache. */
module Client {
  import opened Wrappers
  import opened Php
  import opened Posts

  const TOKEN_KEY_LENGTH := 24
  const TOKEN_SECRET_LENGTH := 48
  const POST_TYPE := "bypath"
  /** Seconds a secret stays in the object cache; expiry itself is not modelled. */
  const SECRET_CACHE_TTL := 3600

  datatype CacheEntry = CacheEntry(value: string, ttl: nat)

  /** The `bypath` object-cache group, keyed by client key. */
  type Cache = map<string, CacheEntry>

  predicate IsClientWithKey(p: Post, key: string, status: string) {
    p.postType == POST_TYPE && p.status == status && p.clientKey == Some(key)
  }

  function ClientQuery(key: string, status: string): Query {
    Query(POST_TYPE, status, Some(key), None, None)
  }

  /** `get_client_object`: the position of a client record in `status`
      whose `_client_key` is `key` (its ID is `IdOf` that position), or None
      when there is no such record. */
  function GetClientObject(store: Store, key: string, status: string): (r: Option<nat>)
    ensures r.None? <==> forall i :: 0 <= i < |store| ==> !IsClientWithKey(store[i], key, status)
    ensures r.Some? ==> r.value < |store| && IsClientWithKey(store[r.value], key, status)
  {
    Latest(store, ClientQuery(key, status))
  }

  /** The secret a lookup would find going straight to the store: the
      published client's `_client_secret`, or '' when there is no client. */
  function StoredSecret(store: Store, key: string): string {
    match GetClientObject(store, key, PUBLISH)
    case Some(i) => Meta(store[i].clientSecret)
    case None => ""
  }

  datatype Lookup = Lookup(secret: string, cache: Cache)

  /** `Client::secret`: a cache hit answers without touching the store; a
      miss reads the published client and caches its secret for an hour,
      or answers '' and caches nothing when there is no client. */
  function Secret(store: Store, cache: Cache, key: string): (r: Lookup)
    ensures key in cache ==> r == Lookup(cache[key].value, cache)
    ensures key !in cache && GetClientObject(store, key, PUBLISH).Some? ==>
      r.secret == StoredSecret(store, key) && r.cache == cache[key := CacheEntry(r.secret, SECRET_CACHE_TTL)]
    ensures key !in cache && GetClientObject(store, key, PUBLISH).None? ==> r == Lookup("", cache)
  {
    if key in cache then Lookup(cache[key].value, cache)
    else match GetClientObject(store, key, PUBLISH)
      case Some(i) =>
        var secret := Meta(store[i].clientSecret);
        Lookup(secret, cache[key := CacheEntry(secret, SECRET_CACHE_TTL)])
      case None => Lookup("", cache)
  }

  /** Every cached secret belongs to a published client and equals its
      stored secret. */
  predicate Coherent(store: Store, cache: Cache) {
    forall k :: k in cache ==> GetClientObject(store, k, PUBLISH).Some? && cache[k].value == StoredSecret(store, k)
  }

  /** No two client records share a client key. */
  predicate UniqueKeys(store: Store) {
    forall i, j ::
      (0 <= i < |store| && 0 <= j < |store| &&
       store[i].postType == POST_TYPE && store[j].postType == POST_TYPE &&
       store[i].clientKey.Some? && store[i].clientKey == store[j].clientKey) ==> i == j
  }

  /** Every stored client key reads as true in PHP, as generated keys do. */
  predicate KeysTruthy(store: Store) {
    forall i :: 0 <= i < |store| && store[i].postType == POST_TYPE && store[i].clientKey.Some? ==>
      Truthy(store[i].clientKey.value)
  }

  predicate Consistent(store: Store, cache: Cache) {
    UniqueKeys(store) && KeysTruthy(store) && Coherent(store, cache)
  }

  /** Over a coherent cache the read-through lookup answers exactly what the
      store holds, and leaves the cache coherent. */
  lemma SecretTransparent(store: Store, cache: Cache, key: string)
    requires Coherent(store, cache)
    ensures Secret(store, cache, key).secret == StoredSecret(store, key)
    ensures Coherent(store, Secret(store, cache, key).cache)
  {
  }

  /** Under unique keys a client record is found by its own key exactly when
      it has the requested status. */
  lemma ClientOfUniqueKey(store: Store, i: nat, status: string)
    requires UniqueKeys(store)
    requires i < |store| && store[i].postType == POST_TYPE && store[i].clientKey.Some?
    ensures GetClientObject(store, store[i].clientKey.value, status) == if store[i].status == status then Some(i) else None
  {
    var r := GetClientObject(store, store[i].clientKey.value, status);
    if store[i].status == status {
      assert IsClientWithKey(store[i], store[i].clientKey.value, status);
    }
  }

  /** `wp_generate_password( $n, false )` returns `n` characters. */
  ghost predicate PasswordLengths(password: nat -> string) {
    forall n :: |password(n)| == n
  }

  /** The `$_REQUEST` fields `save_post` reads; `nonceValid` is what
      `wp_verify_nonce` answers for the submitted nonce. */
  datatype SaveRequest = SaveRequest(nonce: Option<string>, regen: Option<string>, nonceValid: bool)

  /** The password generator, `current_time( 'mysql', true )` and
      `get_current_user_id()` at the time of the save. */
  datatype SaveEnv = SaveEnv(password: nat -> string, nowGmt: string, actor: nat)

  /** Both fields are set, the nonce verifies and the regen flag is true. */
  predicate ExplicitRegen(req: SaveRequest) {
    req.nonce.Some? && req.regen.Some? && req.nonceValid && Truthy(req.regen.value)
  }

  datatype Credentials = Credentials(post: Post, clientKey: string, secretGenerated: bool)

  /** The meta updates `save_post` makes to a client record: a key only when
      none is stored, a secret when regeneration is requested or none is
      stored, and a history row for each requested regeneration. */
  function SaveCredentials(p: Post, req: SaveRequest, env: SaveEnv): (r: Credentials)
    ensures Truthy(Meta(p.clientKey)) ==> r.post.clientKey == p.clientKey && r.clientKey == Meta(p.clientKey)
    ensures !Truthy(Meta(p.clientKey)) ==>
      r.clientKey == env.password(TOKEN_KEY_LENGTH) && r.post.clientKey == Some(r.clientKey)
    ensures r.secretGenerated <==> ExplicitRegen(req) || !Truthy(Meta(p.clientSecret))
    ensures r.secretGenerated ==> r.post.clientSecret == Some(env.password(TOKEN_SECRET_LENGTH))
    ensures !r.secretGenerated ==> r.post.clientSecret == p.clientSecret
    ensures ExplicitRegen(req) ==>
      r.post.history == p.history + [HistoryEntry(env.nowGmt, Meta(p.clientSecret), env.actor)]
    ensures !ExplicitRegen(req) ==> r.post.history == p.history
    ensures r.post == p.(clientKey := r.post.clientKey, clientSecret := r.post.clientSecret, history := r.post.history)
  {
    var current := Meta(p.clientKey);
    var key := if Truthy(current) then current else env.password(TOKEN_KEY_LENGTH);
    var withKey := if Truthy(current) then p else p.(clientKey := Some(key));
    var currentSecret := Meta(p.clientSecret);
    var regen := ExplicitRegen(req);
    var generate := regen || !Truthy(currentSecret);
    var withHistory :=
      if regen then withKey.(history := withKey.history + [HistoryEntry(env.nowGmt, currentSecret, env.actor)])
      else withKey;
    var saved := if generate then withHistory.(clientSecret := Some(env.password(TOKEN_SECRET_LENGTH))) else withHistory;
    Credentials(saved, key, generate)
  }

  datatype Saved = Saved(store: Store, cache: Cache)

  /** `save_post` as written: the cache entry is dropped only when the
      record is not published, because the other half of its condition,
      `$http_response_header`, is undefined in that scope and reads as false. */
  function SavePostAsWritten(store: Store, cache: Cache, id: nat, req: SaveRequest, env: SaveEnv): (r: Saved)
    requires id < |store|
    ensures store[id].postType != POST_TYPE ==> r == Saved(store, cache)
    ensures store[id].postType == POST_TYPE ==>
      var c := SaveCredentials(store[id], req, env);
      && r.store == store[id := c.post]
      && r.cache == if store[id].status != PUBLISH then cache - {c.clientKey} else cache
  {
    if store[id].postType != POST_TYPE then Saved(store, cache)
    else
      var c := SaveCredentials(store[id], req, env);
      var clear := store[id].status != PUBLISH;
      Saved(store[id := c.post], if clear then cache - {c.clientKey} else cache)
  }

  /** `save_post` with the cache entry dropped whenever the secret was
      (re)generated or the record is not published. */
  function SavePost(store: Store, cache: Cache, id: nat, req: SaveRequest, env: SaveEnv): (r: Saved)
    requires id < |store|
    ensures store[id].postType != POST_TYPE ==> r == Saved(store, cache)
    ensures store[id].postType == POST_TYPE ==>
      var c := SaveCredentials(store[id], req, env);
      && r.store == store[id := c.post]
      && r.cache == if c.secretGenerated || store[id].status != PUBLISH then cache - {c.clientKey} else cache
  {
    if store[id].postType != POST_TYPE then Saved(store, cache)
    else
      var c := SaveCredentials(store[id], req, env);
      var clear := c.secretGenerated || store[id].status != PUBLISH;
      Saved(store[id := c.post], if clear then cache - {c.clientKey} else cache)
  }

  /** A generated key has 24 characters and a generated secret 48. */
  lemma GeneratedLengths(store: Store, cache: Cache, id: nat, req: SaveRequest, env: SaveEnv)
    requires id < |store| && store[id].postType == POST_TYPE
    requires PasswordLengths(env.password)
    ensures var p := SavePost(store, cache, id, req, env).store[id];
      && (!Truthy(Meta(store[id].clientKey)) ==> |Meta(p.clientKey)| == TOKEN_KEY_LENGTH)
      && (SaveCredentials(store[id], req, env).secretGenerated ==> |Meta(p.clientSecret)| == TOKEN_SECRET_LENGTH)
  {
    assert |env.password(TOKEN_KEY_LENGTH)| == TOKEN_KEY_LENGTH;
    assert |env.password(TOKEN_SECRET_LENGTH)| == TOKEN_SECRET_LENGTH;
  }

  /** Saving twice leaves the key the first save settled on, which is the
      stored key whenever one was there; without a regeneration request the
      second save keeps the secret and the history too. */
  lemma KeyStableAcrossSaves(store: Store, cache: Cache, id: nat,
                             req1: SaveRequest, env1: SaveEnv, req2: SaveRequest, env2: SaveEnv)
    requires id < |store| && store[id].postType == POST_TYPE
    requires PasswordLengths(env1.password)
    ensures var once := SavePost(store, cache, id, req1, env1);
      var twice := SavePost(once.store, once.cache, id, req2, env2);
      && twice.store[id].clientKey == once.store[id].clientKey
      && (Truthy(Meta(store[id].clientKey)) ==> twice.store[id].clientKey == store[id].clientKey)
      && (!ExplicitRegen(req2) ==> twice.store == once.store)
  {
    var once := SavePost(store, cache, id, req1, env1);
    assert |env1.password(TOKEN_KEY_LENGTH)| == TOKEN_KEY_LENGTH;
    assert |env1.password(TOKEN_SECRET_LENGTH)| == TOKEN_SECRET_LENGTH;
    assert Truthy(Meta(once.store[id].clientKey));
    assert Truthy(Meta(once.store[id].clientSecret));
    var c2 := SaveCredentials(once.store[id], req2, env2);
    if !ExplicitRegen(req2) {
      assert c2.post == once.store[id];
      assert once.store[id := c2.post] == once.store;
    }
  }

  /** A key no record holds and the cache does not know. */
  predicate FreshKey(store: Store, cache: Cache, key: string) {
    key !in cache && forall i :: 0 <= i < |store| ==> store[i].clientKey != Some(key)
  }

  /** A lookup by a key that record `id` holds neither before nor after a
      change to that record alone is not affected by the change. */
  lemma OtherKeyUnaffected(before: Store, after: Store, id: nat, k: string)
    requires |before| == |after| && id < |before|
    requires forall i :: 0 <= i < |before| && i != id ==> after[i] == before[i]
    requires !IsClientWithKey(before[id], k, PUBLISH) && !IsClientWithKey(after[id], k, PUBLISH)
    ensures GetClientObject(after, k, PUBLISH) == GetClientObject(before, k, PUBLISH)
    ensures StoredSecret(after, k) == StoredSecret(before, k)
  {
    var q := ClientQuery(k, PUBLISH);
    forall i | 0 <= i < |before| ensures Matches(q, before[i]) == Matches(q, after[i]) {
      if i != id {
        assert after[i] == before[i];
      }
    }
    LatestFrame(before, after, q);
  }

  /** Replacing record `id` by one holding its former key or a fresh truthy
      key keeps the keys unique and truthy. */
  lemma ReplaceKeepsKeys(before: Store, id: nat, p: Post)
    requires id < |before| && before[id].postType == POST_TYPE && UniqueKeys(before) && KeysTruthy(before)
    requires p.postType == POST_TYPE && p.clientKey.Some? && Truthy(p.clientKey.value)
    requires p.clientKey == before[id].clientKey ||
             forall i :: 0 <= i < |before| ==> before[i].clientKey != p.clientKey
    ensures UniqueKeys(before[id := p]) && KeysTruthy(before[id := p])
  {
    var after := before[id := p];
    forall i, j | 0 <= i < |after| && 0 <= j < |after| &&
                  after[i].postType == POST_TYPE && after[j].postType == POST_TYPE &&
                  after[i].clientKey.Some? && after[i].clientKey == after[j].clientKey
      ensures i == j
    {
      if i != id && j != id {
        assert after[i] == before[i] && after[j] == before[j];
      }
    }
  }

  /** An administrator edits record `id` (the edit may change its status and
      anything else but its type and credentials) and WordPress then runs
      `save_post`: with the corrected cache rule the cache stays coherent,
      provided a key it has to generate is new to the store and the cache. */
  lemma SaveKeepsConsistent(store0: Store, cache: Cache, id: nat, edited: Post, req: SaveRequest, env: SaveEnv)
    requires id < |store0|
    requires Consistent(store0, cache)
    requires edited.postType == store0[id].postType
    requires edited.clientKey == store0[id].clientKey && edited.clientSecret == store0[id].clientSecret
    requires PasswordLengths(env.password)
    requires store0[id].postType == POST_TYPE && !Truthy(Meta(store0[id].clientKey)) ==>
      FreshKey(store0, cache, env.password(TOKEN_KEY_LENGTH))
    ensures var r := SavePost(store0[id := edited], cache, id, req, env);
      Consistent(r.store, r.cache)
  {
    var r := SavePost(store0[id := edited], cache, id, req, env);
    if edited.postType != POST_TYPE {
      forall k | k in r.cache
        ensures GetClientObject(r.store, k, PUBLISH).Some? && r.cache[k].value == StoredSecret(r.store, k)
      {
        OtherKeyUnaffected(store0, r.store, id, k);
      }
    } else {
      var c := SaveCredentials(edited, req, env);
      assert r.store == store0[id := c.post];
      assert |env.password(TOKEN_KEY_LENGTH)| == TOKEN_KEY_LENGTH;
      ReplaceKeepsKeys(store0, id, c.post);
      forall k | k in r.cache
        ensures GetClientObject(r.store, k, PUBLISH).Some? && r.cache[k].value == StoredSecret(r.store, k)
      {
        SavedEntryCoherent(store0, cache, id, edited, req, env, k);
      }
    }
  }

  /** One surviving cache entry after the save of a client record. */
  lemma SavedEntryCoherent(store0: Store, cache: Cache, id: nat, edited: Post, req: SaveRequest, env: SaveEnv, k: string)
    requires id < |store0| && store0[id].postType == POST_TYPE
    requires Consistent(store0, cache)
    requires edited.postType == POST_TYPE
    requires edited.clientKey == store0[id].clientKey && edited.clientSecret == store0[id].clientSecret
    requires !Truthy(Meta(store0[id].clientKey)) ==> FreshKey(store0, cache, env.password(TOKEN_KEY_LENGTH))
    requires UniqueKeys(store0[id := SaveCredentials(edited, req, env).post])
    requires k in SavePost(store0[id := edited], cache, id, req, env).cache
    ensures var r := SavePost(store0[id := edited], cache, id, req, env);
      GetClientObject(r.store, k, PUBLISH).Some? && r.cache[k].value == StoredSecret(r.store, k)
  {
    var c := SaveCredentials(edited, req, env);
    var store2 := store0[id := c.post];
    var r := SavePost(store0[id := edited], cache, id, req, env);
    assert r.store == store2;
    assert k in cache && r.cache[k] == cache[k];
    if store0[id].clientKey == Some(k) || k == c.clientKey {
      assert store0[id].clientKey == Some(k) && c.clientKey == k;
      ClientOfUniqueKey(store0, id, PUBLISH);
      ClientOfUniqueKey(store2, id, PUBLISH);
    } else {
      OtherKeyUnaffected(store0, store2, id, k);
      assert GetClientObject(store0, k, PUBLISH).value != id;
    }
  }

  /** A published client whose secret is cached, and a save that asks for
      its secret to be regenerated. */
  const ExampleKey := "abcdefghijklmnopqrstuvwx"

  function ExampleStore(): Store {
    [Post(POST_TYPE, PUBLISH, "App", 1, NO_PARENT, "", 0, Some(ExampleKey), Some("former"), [])]
  }

  function ExampleCache(): Cache {
    map[ExampleKey := CacheEntry("former", SECRET_CACHE_TTL)]
  }

  function ExampleRegen(): SaveRequest {
    SaveRequest(Some("nonce"), Some("1"), true)
  }

  function ExampleEnv(): SaveEnv {
    SaveEnv(n => if n == TOKEN_SECRET_LENGTH then "rotated" else "", "2020-01-01 00:00:00", 1)
  }

  /** The cache rule as written lets a regenerated secret go unnoticed: on a
      published client whose secret is cached, the lookup after an explicit
      regeneration still answers the former secret. */
  lemma AsWrittenServesFormerSecret()
    ensures Consistent(ExampleStore(), ExampleCache())
    ensures var r := SavePostAsWritten(ExampleStore(), ExampleCache(), 0, ExampleRegen(), ExampleEnv());
      && Secret(r.store, r.cache, ExampleKey).secret == "former"
      && StoredSecret(r.store, ExampleKey) == "rotated"
  {
    ClientOfUniqueKey(ExampleStore(), 0, PUBLISH);
    var r := SavePostAsWritten(ExampleStore(), ExampleCache(), 0, ExampleRegen(), ExampleEnv());
    assert ExplicitRegen(ExampleRegen());
    assert r.store[0].clientKey == Some(ExampleKey);
    assert r.store[0].clientSecret == Some("rotated");
    ClientOfUniqueKey(r.store, 0, PUBLISH);
  }
}

=== FILE: keysort.dfy ===
/** Request parameters and the `ksort` + concatenate step of the signed
    request check: insertion sort by key under the byte-wise order. */
module KeySort {
  import opened Php

  datatype Param = Param(key: string, value: string)

  /** A PHP array never holds the same key twice. */
  predicate DistinctKeys(ps: seq<Param>) {
    forall i, j :: 0 <= i < j < |ps| ==> ps[i].key != ps[j].key
  }

  predicate SortedByKey(ps: seq<Param>) {
    forall i, j :: 0 <= i < j < |ps| ==> Less(ps[i].key, ps[j].key)
  }

  predicate KeyAbsent(k: string, ps: seq<Param>) {
    forall i :: 0 <= i < |ps| ==> ps[i].key != k
  }

  /** Two parameter lists with the same keys in the same places and values
      of the same lengths: what a same-length edit of values leaves alike. */
  predicate SameShape(a: seq<Param>, b: seq<Param>) {
    |a| == |b| && forall i :: 0 <= i < |a| ==> a[i].key == b[i].key && |a[i].value| == |b[i].value|
  }

  function Insert(p: Param, s: seq<Param>): (r: seq<Param>)
    ensures |r| == |s| + 1
    ensures forall x :: x in r <==> x == p || x in s
    ensures multiset(r) == multiset(s) + multiset{p}
  {
    if |s| == 0 then [p]
    else if Less(p.key, s[0].key) then [p] + s
    else
      assert s == [s[0]] + s[1..];
      [s[0]] + Insert(p, s[1..])
  }

  /** `ksort`: the same parameters, ordered by key. */
  function Sort(s: seq<Param>): (r: seq<Param>)
    ensures |r| == |s|
    ensures forall x :: x in r <==> x in s
    ensures multiset(r) == multiset(s)
  {
    if |s| == 0 then []
    else
      assert s == [s[0]] + s[1..];
      Insert(s[0], Sort(s[1..]))
  }

  /** The values, in order, joined into one string. */
  function ConcatValues(s: seq<Param>): string {
    if |s| == 0 then "" else s[0].value + ConcatValues(s[1..])
  }

  lemma {:induction false} InsertSorted(p: Param, s: seq<Param>)
    requires SortedByKey(s) && KeyAbsent(p.key, s)
    ensures SortedByKey(Insert(p, s))
  {
    if |s| == 0 {
    } else if Less(p.key, s[0].key) {
      forall j | 1 <= j < |s| ensures Less(p.key, s[j].key) {
        LessTransitive(p.key, s[0].key, s[j].key);
      }
    } else {
      LessTotal(p.key, s[0].key);
      InsertSorted(p, s[1..]);
      var r := Insert(p, s[1..]);
      forall j | 0 <= j < |r| ensures Less(s[0].key, r[j].key) {
        assert r[j] in r;
        if r[j] != p {
          var k :| 1 <= k < |s| && s[k] == r[j];
        }
      }
    }
  }

  /** With distinct keys, `ksort` yields a strictly ascending key order. */
  lemma {:induction false} SortSorted(s: seq<Param>)
    requires DistinctKeys(s)
    ensures SortedByKey(Sort(s))
  {
    if |s| > 0 {
      SortSorted(s[1..]);
      var t := Sort(s[1..]);
      forall i | 0 <= i < |t| ensures t[i].key != s[0].key {
        assert t[i] in t;
        var k :| 1 <= k < |s| && s[k] == t[i];
      }
      InsertSorted(s[0], t);
    }
  }

  /** A strictly sorted list is determined by its elements. */
  lemma {:induction false} SortedUnique(a: seq<Param>, b: seq<Param>)
    requires SortedByKey(a) && SortedByKey(b)
    requires forall x :: x in a <==> x in b
    ensures a == b
  {
    assert |a| > 0 ==> a[0] in b;
    assert |b| > 0 ==> b[0] in a;
    if |a| == 0 || |b| == 0 {
    } else {
      assert a[0] in b && b[0] in a;
      var i :| 0 <= i < |a| && a[i] == b[0];
      var j :| 0 <= j < |b| && b[j] == a[0];
      if i > 0 && j > 0 {
        LessAsymmetric(a[0].key, b[0].key);
      } else if i > 0 {
        LessIrreflexive(a[0].key);
      } else if j > 0 {
        LessIrreflexive(b[0].key);
      }
      assert a[0] == b[0];
      forall x ensures x in a[1..] <==> x in b[1..] {
        if x in a[1..] {
          var k :| 1 <= k < |a| && a[k] == x;
          assert Less(a[0].key, x.key);
          LessIrreflexive(a[0].key);
          assert x in b;
          var m :| 0 <= m < |b| && b[m] == x;
          assert m != 0 && b[1..][m - 1] == x;
        }
        if x in b[1..] {
          var k :| 1 <= k < |b| && b[k] == x;
          assert Less(b[0].key, x.key);
          LessIrreflexive(b[0].key);
          assert x in a;
          var m :| 0 <= m < |a| && a[m] == x;
          assert m != 0 && a[1..][m - 1] == x;
        }
      }
      SortedUnique(a[1..], b[1..]);
      assert a == [a[0]] + a[1..] && b == [b[0]] + b[1..];
    }
  }

  /** Sorting ignores the order the parameters arrive in. */
  lemma SortIgnoresOrder(a: seq<Param>, b: seq<Param>)
    requires DistinctKeys(a) && DistinctKeys(b)
    requires forall x :: x in a <==> x in b
    ensures Sort(a) == Sort(b)
  {
    SortSorted(a);
    SortSorted(b);
    SortedUnique(Sort(a), Sort(b));
  }

  lemma {:induction false} InsertShape(p: Param, q: Param, s: seq<Param>, t: seq<Param>)
    requires p.key == q.key && |p.value| == |q.value| && SameShape(s, t)
    ensures SameShape(Insert(p, s), Insert(q, t))
  {
    if |s| > 0 && !Less(p.key, s[0].key) {
      InsertShape(p, q, s[1..], t[1..]);
    }
  }

  /** Sorting depends on keys alone, so it keeps two lists alike in shape. */
  lemma {:induction false} SortShape(a: seq<Param>, b: seq<Param>)
    requires SameShape(a, b)
    ensures SameShape(Sort(a), Sort(b))
  {
    if |a| > 0 {
      SortShape(a[1..], b[1..]);
      InsertShape(a[0], b[0], Sort(a[1..]), Sort(b[1..]));
    }
  }

  /** Joining values is injective on lists of one shape: any edit that keeps
      every value's length changes the joined string. */
  lemma {:induction false} ConcatDistinguishes(a: seq<Param>, b: seq<Param>)
    requires SameShape(a, b) && a != b
    ensures ConcatValues(a) != ConcatValues(b)
  {
    assert |a| > 0;
    var n := |a[0].value|;
    assert ConcatValues(a)[..n] == a[0].value && ConcatValues(b)[..n] == b[0].value;
    if a[0] == b[0] {
      assert a == [a[0]] + a[1..] && b == [b[0]] + b[1..];
      ConcatDistinguishes(a[1..], b[1..]);
      assert ConcatValues(a)[n..] == ConcatValues(a[1..]);
      assert ConcatValues(b)[n..] == ConcatValues(b[1..]);
    }
  }

  /** Two lists of one shape with distinct keys and the same elements are
      the same list. */
  lemma ShapeSetEqual(a: seq<Param>, b: seq<Param>)
    requires SameShape(a, b) && DistinctKeys(a)
    requires forall x :: x in a <==> x in b
    ensures a == b
  {
    forall i | 0 <= i < |a| ensures a[i] == b[i] {
      assert a[i] in b;
      var j :| 0 <= j < |b| && b[j] == a[i];
      assert a[j].key == a[i].key;
    }
  }
}

=== FILE: php.dfy ===
/** The few PHP value semantics the authentication core depends on. */
module Php {

  /** PHP's boolean conversion of a string: exactly "" and "0" are false. */
  predicate Truthy(s: string) {
    s != "" && s != "0"
  }

  /** Byte-wise string comparison as used by `ksort` on non-numeric keys:
      lexicographic on characters, a proper prefix sorting first. */
  predicate Less(a: string, b: string) {
    if |a| == 0 then |b| > 0
    else if |b| == 0 then false
    else if a[0] == b[0] then Less(a[1..], b[1..])
    else a[0] < b[0]
  }

  lemma {:induction false} LessIrreflexive(a: string)
    ensures !Less(a, a)
  {
    if |a| > 0 {
      LessIrreflexive(a[1..]);
    }
  }

  lemma {:induction false} LessAsymmetric(a: string, b: string)
    requires Less(a, b)
    ensures !Less(b, a)
  {
    if |a| > 0 && |b| > 0 && a[0] == b[0] {
      LessAsymmetric(a[1..], b[1..]);
    }
  }

  lemma {:induction false} LessTransitive(a: string, b: string, c: string)
    requires Less(a, b) && Less(b, c)
    ensures Less(a, c)
  {
    if |a| > 0 && |b| > 0 && |c| > 0 && a[0] == b[0] && b[0] == c[0] {
      LessTransitive(a[1..], b[1..], c[1..]);
    }
  }

  lemma {:induction false} LessTotal(a: string, b: string)
    requires a != b
    ensures Less(a, b) || Less(b, a)
  {
    if |a| > 0 && |b| > 0 && a[0] == b[0] {
      assert a == [a[0]] + a[1..] && b == [b[0]] + b[1..];
      LessTotal(a[1..], b[1..]);
    }
  }

  /** ASCII lower-casing, the folding PCRE's `i` flag applies to the letters
      of the `Bypath` scheme keyword. */
  function Lower(c: char): char {
    if 'A' <= c <= 'Z' then (c as int + 32) as char else c
  }

  function DigitChar(d: nat): char
    requires d < 10
  {
    "0123456789"[d]
  }

  /** Decimal rendering of a non-negative integer, as `%d` in `sprintf`. */
  function Decimal(n: nat): (r: string)
    ensures |r| > 0
    decreases n
  {
    if n < 10 then [DigitChar(n)] else Decimal(n / 10) + [DigitChar(n % 10)]
  }
}

=== FILE: posts.dfy ===
/** The WordPress post table as the authentication core uses it: client and
    token records are both posts, told apart by their post type, with the
    client credentials kept as post meta. Posts are addressed by their
    position in the table; a post's WordPress ID is `IdOf` its position. */
module Posts {
  import opened Wrappers

  const PUBLISH := "publish"

  /** One `_bypath_history` meta row written when a secret is regenerated. */
  datatype HistoryEntry = HistoryEntry(modified: string, former: string, author: nat)

  datatype Post = Post(
    postType: string,
    status: string,
    title: string,
    author: nat,
    parent: nat,                     // ID of the parent post, NO_PARENT for none
    excerpt: string,
    date: int,
    clientKey: Option<string>,       // `_client_key` meta, None when absent
    clientSecret: Option<string>,    // `_client_secret` meta
    history: seq<HistoryEntry>)      // `_bypath_history` meta rows, oldest first

  type Store = seq<Post>

  /** WordPress post IDs start at 1: the post at position `i` has ID
      `i + 1`, and a `parent` of NO_PARENT means the post has none. */
  function IdOf(i: nat): nat {
    i + 1
  }

  const NO_PARENT := 0

  /** `get_post_meta( $id, $key, true )`: an absent meta reads as ''. */
  function Meta(m: Option<string>): string {
    m.GetOr("")
  }

  /** The filters of a `get_posts` call: post type, status, and optionally a
      `_client_key` meta query, an author and a parent. */
  datatype Query = Query(
    postType: string,
    status: string,
    clientKey: Option<string>,
    author: Option<nat>,
    parent: Option<nat>)

  predicate Matches(q: Query, p: Post) {
    && p.postType == q.postType
    && p.status == q.status
    && (q.clientKey.Some? ==> p.clientKey == q.clientKey)
    && (q.author.Some? ==> p.author == q.author.value)
    && (q.parent.Some? ==> p.parent == q.parent.value)
  }

  /** Post `a` at position `i` sorts no later than post `b` at position `j`
      under `orderby date DESC`; equal dates fall back to the higher position (and so the higher ID). */
  predicate NoNewer(a: Post, i: nat, b: Post, j: nat) {
    a.date < b.date || (a.date == b.date && i <= j)
  }

  /** `get_posts` with `posts_per_page => 1` ordered by date, newest first:
      the position of the newest matching post, or None when nothing matches;
      its ID is `IdOf` that position. */
  function Latest(s: Store, q: Query): (r: Option<nat>)
    ensures r.None? <==> forall i :: 0 <= i < |s| ==> !Matches(q, s[i])
    ensures r.Some? ==> r.value < |s| && Matches(q, s[r.value])
    ensures r.Some? ==> forall i :: 0 <= i < |s| && Matches(q, s[i]) ==> NoNewer(s[i], i, s[r.value], r.value)
  {
    if |s| == 0 then None
    else
      var last := |s| - 1;
      var earlier := Latest(s[..last], q);
      if !Matches(q, s[last]) then earlier
      else if earlier.Some? && s[earlier.value].date > s[last].date then earlier
      else Some(last)
  }

  /** The newest match is the only position meeting Latest's contract. */
  lemma LatestUnique(s: Store, q: Query, r: Option<nat>)
    requires r.None? <==> forall i :: 0 <= i < |s| ==> !Matches(q, s[i])
    requires r.Some? ==> r.value < |s| && Matches(q, s[r.value])
    requires r.Some? ==> forall i :: 0 <= i < |s| && Matches(q, s[i]) ==> NoNewer(s[i], i, s[r.value], r.value)
    ensures r == Latest(s, q)
  {
    var l := Latest(s, q);
    if r.Some? && l.Some? {
      assert NoNewer(s[r.value], r.value, s[l.value], l.value);
      assert NoNewer(s[l.value], l.value, s[r.value], r.value);
    }
  }

  /** Two tables that agree on which posts match and on those posts' dates
      give the same answer. */
  lemma LatestFrame(s: Store, t: Store, q: Query)
    requires |s| == |t|
    requires forall i :: 0 <= i < |s| ==> Matches(q, s[i]) == Matches(q, t[i])
    requires forall i :: 0 <= i < |s| && Matches(q, s[i]) ==> s[i].date == t[i].date
    ensures Latest(s, q) == Latest(t, q)
  {
    var l := Latest(s, q);
    if l.Some? {
      forall i | 0 <= i < |t| && Matches(q, t[i])
        ensures NoNewer(t[i], i, t[l.value], l.value)
      {
        assert NoNewer(s[i], i, s[l.value], l.value);
      }
    }
    LatestUnique(t, q, l);
  }

  /** Inserting a post that does not match leaves the answer unchanged. */
  lemma LatestAppendOther(s: Store, p: Post, q: Query)
    requires !Matches(q, p)
    ensures Latest(s + [p], q) == Latest(s, q)
  {
    assert (s + [p])[..|s|] == s;
  }

  /** Inserting a matching post dated no earlier than anything already there
      makes it the answer. */
  lemma LatestAppendNewest(s: Store, p: Post, q: Query)
    requires Matches(q, p)
    requires forall i :: 0 <= i < |s| ==> s[i].date <= p.date
    ensures Latest(s + [p], q) == Some(|s|)
  {
    assert (s + [p])[..|s|] == s;
  }
}

=== FILE: rotation.dfy ===
/** Secret regeneration end to end: `save_post` with a regeneration request,
    then signed requests checked through the secret cache. */
module Rotation {
  import opened Wrappers
  import opened Php
  import opened Posts
  import opened KeySort
  import opened ApiBase
  import Client

  /** The request a client builds: its business parameters, its key and the
      token signed with `secret`. */
  function SignedRequest(ps: seq<Param>, clientKey: string, secret: string, sha: string -> string): seq<Param> {
    ps + [Param(CLIENT_KEY, clientKey), Param(TOKEN, Sign(ps, secret, sha))]
  }

  lemma SignedRequestShape(ps: seq<Param>, clientKey: string, secret: string, sha: string -> string)
    requires BusinessParams(ps)
    ensures RequestOf(SignedRequest(ps, clientKey, secret, sha), ps, clientKey, Sign(ps, secret, sha))
  {
    var r := SignedRequest(ps, clientKey, secret, sha);
    forall i, j | 0 <= i < j < |r| ensures r[i].key != r[j].key {
      if j < |ps| {
        assert r[i] == ps[i] && r[j] == ps[j];
      } else if i < |ps| {
        assert r[i] == ps[i];
      }
    }
  }

  /** After a regeneration on a consistent store, the lookup answers the new
      secret. */
  lemma RotatedSecretServed(store: Store, cache: Client.Cache, id: nat, req: Client.SaveRequest, env: Client.SaveEnv)
    requires id < |store| && Client.Consistent(store, cache)
    requires store[id].postType == Client.POST_TYPE && store[id].status == PUBLISH && store[id].clientKey.Some?
    requires Client.ExplicitRegen(req) && Client.PasswordLengths(env.password)
    ensures var saved := Client.SavePost(store, cache, id, req, env);
      && Client.Secret(saved.store, saved.cache, store[id].clientKey.value).secret == env.password(Client.TOKEN_SECRET_LENGTH)
      && Truthy(env.password(Client.TOKEN_SECRET_LENGTH))
      && Truthy(store[id].clientKey.value)
  {
    var key := store[id].clientKey.value;
    var rotated := env.password(Client.TOKEN_SECRET_LENGTH);
    assert store[id := store[id]] == store;
    Client.SaveKeepsConsistent(store, cache, id, store[id], req, env);
    var saved := Client.SavePost(store, cache, id, req, env);
    assert saved.store[id].clientKey == Some(key);
    assert |rotated| == Client.TOKEN_SECRET_LENGTH;
    assert saved.store[id].clientSecret == Some(rotated);
    Client.SecretTransparent(saved.store, saved.cache, key);
    Client.ClientOfUniqueKey(saved.store, id, PUBLISH);
  }

  /** With the corrected cache rule, once a published client's secret is
      regenerated a request signed with the new secret passes and one signed
      with the former secret fails the hash test. */
  lemma RotationRejectsFormerSecret(store: Store, cache: Client.Cache, id: nat, req: Client.SaveRequest,
                                    env: Client.SaveEnv, ps: seq<Param>, sha: string -> string)
    requires id < |store| && Client.Consistent(store, cache)
    requires store[id].postType == Client.POST_TYPE && store[id].status == PUBLISH && store[id].clientKey.Some?
    requires Client.ExplicitRegen(req) && Client.PasswordLengths(env.password)
    requires Meta(store[id].clientSecret) != env.password(Client.TOKEN_SECRET_LENGTH)
    requires BusinessParams(ps) && TruthyDigests(sha) && Injective(sha)
    ensures var key := store[id].clientKey.value;
      var saved := Client.SavePost(store, cache, id, req, env);
      && CheckGeneralHash(SignedRequest(ps, key, env.password(Client.TOKEN_SECRET_LENGTH), sha),
                          saved.store, saved.cache, sha).outcome == Pass
      && CheckGeneralHash(SignedRequest(ps, key, Meta(store[id].clientSecret), sha),
                          saved.store, saved.cache, sha).outcome == Fail(BadHash)
  {
    var key := store[id].clientKey.value;
    var former := Meta(store[id].clientSecret);
    var rotated := env.password(Client.TOKEN_SECRET_LENGTH);
    RotatedSecretServed(store, cache, id, req, env);
    var saved := Client.SavePost(store, cache, id, req, env);

    SignedRequestShape(ps, key, rotated, sha);
    SignedRequestVerifies(SignedRequest(ps, key, rotated, sha), ps, key, rotated, saved.store, saved.cache, sha);

    SignedRequestShape(ps, key, former, sha);
    var c := ConcatValues(Sort(ps));
    assert (c + former)[|c|..] == former && (c + rotated)[|c|..] == rotated;
    assert Truthy(Sign(ps, former, sha));
    MismatchedTokenRejected(SignedRequest(ps, key, former, sha), ps, key, Sign(ps, former, sha), rotated,
                            saved.store, saved.cache, sha);
  }

  /** The same regeneration under the cache rule as written: the request
      signed with the former secret still passes. */
  lemma AsWrittenAcceptsFormerSecret(ps: seq<Param>, sha: string -> string)
    requires BusinessParams(ps) && TruthyDigests(sha)
    ensures var saved := Client.SavePostAsWritten(Client.ExampleStore(), Client.ExampleCache(), 0,
                                                 Client.ExampleRegen(), Client.ExampleEnv());
      CheckGeneralHash(SignedRequest(ps, Client.ExampleKey, "former", sha), saved.store, saved.cache, sha).outcome == Pass
  {
    Client.AsWrittenServesFormerSecret();
    var saved := Client.SavePostAsWritten(Client.ExampleStore(), Client.ExampleCache(), 0,
                                          Client.ExampleRegen(), Client.ExampleEnv());
    SignedRequestShape(ps, Client.ExampleKey, "former", sha);
    SignedRequestVerifies(SignedRequest(ps, Client.ExampleKey, "former", sha), ps, Client.ExampleKey, "former",
                          saved.store, saved.cache, sha);
  }
}

=== FILE: usertoken.dfy ===
/** `UserToken::get_token`: the newest published token of a user under a
    client, minted on request when there is none. Token records are posts
    of type `tokens` whose parent is the client and whose excerpt is the
    token value. */
module UserToken {
  import opened Wrappers
  import opened Php
  import opened Posts
  import Client

  const POST_TYPE := "tokens"

  datatype TokenError = ClientNotFound | TokenGenerationFailed {

    function Code(): string {
      match this
      case ClientNotFound => "client_not_found"
      case TokenGenerationFailed => "token_generation_failed"
    }

    function Status(): nat {
      match this
      case ClientNotFound => 404
      case TokenGenerationFailed => 500
    }
  }

  /** The two errors map to the codes and statuses of UserToken.php, and
      each status names one error. */
  lemma ErrorMapping()
    ensures ClientNotFound.Code() == "client_not_found" && ClientNotFound.Status() == 404
    ensures TokenGenerationFailed.Code() == "token_generation_failed" && TokenGenerationFailed.Status() == 500
    ensures forall e1: TokenError, e2: TokenError :: e1.Status() == e2.Status() ==> e1 == e2
  {
  }

  /** The UUID `Uuid::uuid4()` would return, the insertion time, and whether
      `wp_insert_post` reports an error. */
  datatype IssueEnv = IssueEnv(uuid: string, now: int, insertFails: bool)

  /** Published tokens of `user` whose parent is the client at position
      `client`. */
  function TokenQuery(user: nat, client: nat): Query {
    Query(POST_TYPE, PUBLISH, None, Some(user), Some(IdOf(client)))
  }

  /** A token record without a parent belongs to no client. */
  lemma ParentlessBelongsToNoClient(p: Post, user: nat, client: nat)
    requires p.parent == NO_PARENT
    ensures !Matches(TokenQuery(user, client), p)
  {
  }

  /** The excerpt of the newest published token of `user` under `client`,
      or '' when there is none. */
  function ExistingToken(store: Store, user: nat, client: nat): string {
    match Latest(store, TokenQuery(user, client))
    case Some(i) => store[i].excerpt
    case None => ""
  }

  /** The title `sprintf( 'Token for %1$s of #%2$d', ... )` gives a token. */
  function TokenTitle(clientTitle: string, user: nat): string {
    "Token for " + clientTitle + " of #" + Decimal(user)
  }

  datatype Issued = Issued(result: Result<string, TokenError>, store: Store)

  /** `get_token( $client_key, $user_id, $generate_if_not_exists )`. */
  function GetToken(store: Store, clientKey: string, user: nat, generate: bool, env: IssueEnv): (r: Issued)
    ensures Client.GetClientObject(store, clientKey, PUBLISH).None? ==> r == Issued(Failure(ClientNotFound), store)
    ensures Client.GetClientObject(store, clientKey, PUBLISH).Some? ==>
      var client := Client.GetClientObject(store, clientKey, PUBLISH).value;
      var existing := ExistingToken(store, user, client);
      && (!generate || Truthy(existing) ==> r == Issued(Success(existing), store))
      && (generate && !Truthy(existing) && env.insertFails ==> r == Issued(Failure(TokenGenerationFailed), store))
      && (generate && !Truthy(existing) && !env.insertFails ==>
            && r.result == Success(env.uuid)
            && |r.store| == |store| + 1 && r.store[..|store|] == store
            && var p := r.store[|store|];
               p.postType == POST_TYPE && p.status == PUBLISH && p.author == user && p.parent == IdOf(client)
               && p.excerpt == env.uuid && p.date == env.now
               && p.title == TokenTitle(store[client].title, user))
  {
    match Client.GetClientObject(store, clientKey, PUBLISH)
    case None => Issued(Failure(ClientNotFound), store)
    case Some(client) =>
      var token := ExistingToken(store, user, client);
      if generate && !Truthy(token) then
        if env.insertFails then Issued(Failure(TokenGenerationFailed), store)
        else
          var p := Post(POST_TYPE, PUBLISH, TokenTitle(store[client].title, user), user, IdOf(client),
                        env.uuid, env.now, None, None, []);
          assert (store + [p])[..|store|] == store;
          Issued(Success(env.uuid), store + [p])
      else Issued(Success(token), store)
  }

  /** Issuing twice for the same client and user, with nothing else changing
      the store in between, gives the same answer, and only the first call
      can add a record. This assumes the UUID reads as true (a UUID has 36
      characters) and the new record is dated strictly later than every
      record already there, so the newest-first order needs no tie-break. */
  lemma GetTokenIdempotent(store: Store, clientKey: string, user: nat, generate: bool, env1: IssueEnv, env2: IssueEnv)
    requires Truthy(env1.uuid)
    requires forall i :: 0 <= i < |store| ==> store[i].date < env1.now
    ensures var first := GetToken(store, clientKey, user, generate, env1);
      first.result != Failure(TokenGenerationFailed) ==>
        GetToken(first.store, clientKey, user, generate, env2) == Issued(first.result, first.store)
  {
    var first := GetToken(store, clientKey, user, generate, env1);
    if first.store != store {
      var client := Client.GetClientObject(store, clientKey, PUBLISH).value;
      var p := first.store[|store|];
      assert first.store == store + [p];
      LatestAppendOther(store, p, Client.ClientQuery(clientKey, PUBLISH));
      LatestAppendNewest(store, p, TokenQuery(user, client));
    }
  }
}

=== FILE: wrappers.dfy ===
/** Failure-compatible sums used across the model: an optional value, and a
    value-or-error result standing for PHP's `value|\WP_Error` returns. */
module Wrappers {

  datatype Option<+T> = None | Some(value: T) {

    /** The wrapped value, or `default` when there is none. */
    function GetOr(default: T): T {
      match this
      case Some(v) => v
      case None => default
    }
  }

  /** `Success` carries the normal return value, `Failure` a `\WP_Error`. */
  datatype Result<+R, +E> = Success(value: R) | Failure(error: E)

  /** A result that carries no value on success (PHP's bare `true`). */
  datatype Outcome<+E> = Pass | Fail(error: E)
}
